=== FILE: README.md ===
# Client metadata of a web request, in Dafny

A model of `lib/request.js` of the umami analytics server: the helpers that
attach client metadata to an incoming tracking request.

- `getIpAddress` picks the client address. It tries a configured trusted
  header, then Cloudflare's `cf-connecting-ip`, then the generic heuristics
  of `request-ip`.
- `getDevice` classifies a `"WxH"` screen string and an OS name. The result
  is desktop, laptop, tablet or mobile, decided by two OS families and three
  width thresholds.
- `getCountry` answers with Cloudflare's `cf-ipcountry` header. Failing that,
  it answers nothing for a local address. Otherwise it looks the address up
  in an offline GeoLite2 database. The module opens that database on first
  use and keeps the handle.
- `getIPAreaInBMap` asks Baidu's IP-location API for the area. The query is
  signed with an `sn` parameter built by `caculateBDAKSN`, and the reply is
  shaped into `"province|city"`, or `""` when the API reports an error.
- `getClientInfo` runs the above in order for one request.
- `getJsonBody` decides whether the request body is JSON text to be parsed.

Modules, one per concern:

| file | module | models |
|---|---|---|
| js_values.dfy | `JsValues` | `undefined` as `Option`, throws as `Result`, string truthiness, header maps |
| text.dfy | `Text` | `split(sep)[0]`, `indexOf`, `lastIndexOf` |
| numbers.dfy | `Numbers` | coercion of a width string to a number: `NaN` or an integer |
| device.dfy | `Device` | `getDevice` |
| ip_address.dfy | `IpAddress` | `getIpAddress` |
| country.dfy | `Country` | `getCountry` and the lazily opened `lookup` handle |
| area.dfy | `Area` | `getIPAreaInBMap` and `caculateBDAKSN` |
| client_info.dfy | `ClientInfo` | `getClientInfo` and `getJsonBody` |

Modelling choices:

- Third-party code becomes a function-typed parameter (an oracle). This covers
  `request-ip`, `is-localhost-ip`, the maxmind reader's `get`, `detect-browser`,
  `md5`, `encodeURIComponent` and the HTTP round trip to the area API.
  Because each oracle is a parameter, the lemmas hold for every behaviour of
  that code. A lemma saying a result is the same for two different oracles
  says that the oracle is not consulted.
- The configuration imported from `./constants` is a parameter: the OS lists
  `DESKTOP_OS` and `MOBILE_OS` and the thresholds `DESKTOP_SCREEN_WIDTH`,
  `LAPTOP_SCREEN_WIDTH` and `MOBILE_SCREEN_WIDTH`. The same goes for the
  environment variable `CLIENT_IP_HEADER` and the area API's two keys.
- A width string is coerced to a number in the decimal-integer subset of
  JavaScript's `Number`. The empty string is 0. Digits with an optional
  leading `+` or `-` give their value, leading zeros included. Everything
  else is `NaN`, and every comparison with `NaN` is false. The other
  numerals JavaScript accepts are listed under "Left out".
- The module-level `lookup` variable becomes a `GeoState` value that each
  `getCountry` call takes and returns. It says whether the handle is set and
  counts how often the database was opened. The counter is an ordinary
  (non-ghost) field.
- JavaScript's string conversions are explicit. `${ip}` writes the `null`
  returned by `request-ip` as `"null"`. A missing `province` or `city` is
  concatenated as `"undefined"`, and a JSON `null` one as `"null"`. Reading a property of a missing `content`
  or `address_detail` throws, and the model returns `Err(PropertyOfUndefined)`.
- `getIpAddress` exists twice: `GetIpAddressAsWritten` as the code reads, and
  `GetIpAddress` with the correction described under Findings.
  `getClientInfo` uses the one as written, as `lib/request.js:83` does, so
  its address, country and area follow the code.

## Model

| member | source | states |
|---|---|---|
| Text.FirstField | lib/request.js:35 | the width field is the longest prefix of the screen string without an `x`: it stops at the first `x` or at the end |
| Text.FirstFieldOfJoin | lib/request.js:35 | joining a separator-free field, the separator and any rest, then splitting, gives the field back |
| Text.IndexOf | lib/request.js:94 | returns -1 exactly when the pattern occurs nowhere; otherwise the first position where it occurs |
| Numbers.ToNumber | lib/request.js:38-53 | the empty width is 0; a run of digits is never `NaN` and is non-negative; a sign followed by digits is never `NaN`; a negative value needs a leading `-`; a value other than `NaN` has only digits after its first character; a width starting with anything but a digit or sign is `NaN` |
| Numbers.NumberOfDecimal | lib/request.js:38-53 | every integer, written in decimal (optionally with a sign), coerces back to itself |
| Numbers.PaddedNumeral | lib/request.js:38-53 | leading zeros do not change the value: `"0800"` is 800 and `"-05"` is -5, with or without a sign |
| Numbers.SignAloneIsNaN | lib/request.js:38-53 | a lone `+` or `-` width is `NaN` |
| Numbers.ScreenWidthOfDecimal | lib/request.js:35 | a screen `"<n>x<h>"` has width `n`, whatever the height text |
| Numbers.ScreenWidthOfBareDecimal | lib/request.js:35 | a screen with no `x` is all width |
| Numbers.ScreenWidthOfEmptyWidth | lib/request.js:35 | a screen `"x<h>"` has width 0 |
| Device.Classify | lib/request.js:37-57 | desktop family: laptop or desktop, laptop iff Chrome OS or width below the desktop threshold (so `NaN` is desktop); mobile family outside the desktop family: tablet or mobile, tablet iff Amazon OS or width strictly above the mobile threshold; other OS: the first `>=` threshold met, `NaN` and small widths are mobile |
| Device.GetDevice | lib/request.js:32-58 | no answer exactly when the screen is absent or empty; otherwise the class of the screen's width |
| Device.BrowserIgnored | lib/request.js:32-58 | the result never depends on the browser argument |
| Device.NaNWidth | lib/request.js:37-57 | a `NaN` width gives desktop (or laptop for Chrome OS), mobile (or tablet for Amazon OS), or mobile for an unlisted OS |
| Device.UnlistedBuckets | lib/request.js:49-57 | with descending thresholds an unlisted OS is bucketed by the half-open intervals desktop `[D,∞)`, laptop `[L,D)`, tablet `[M,L)`, mobile below `M` or `NaN`, in both directions |
| Device.MonotoneInWidth | lib/request.js:37-57 | for a fixed OS, a wider screen never gets a smaller class |
| Device.DeviceOfScreen | lib/request.js:32-58 | a screen string `"<n>x<h>"` is classified by the integer width `n` alone |
| Device.NamedOsFixed | lib/request.js:38-45 | Chrome OS in the desktop family is always a laptop; Amazon OS in the mobile family is always a tablet, for every non-empty screen |
| IpAddress.ChooseIpAsWritten | lib/request.js:21-29 | as written: a non-empty header at the key of `CLIENT_IP_HEADER` (the `"undefined"` key when unset) wins, then a non-empty `cf-connecting-ip`, else the fallback |
| IpAddress.UndefinedHeaderIsTrusted | lib/request.js:21-22 | unconfigured, a client header named `undefined` overrides `cf-connecting-ip` |
| IpAddress.ChooseIp | lib/request.js:21-29 | corrected: agrees with the code whenever a custom header is configured; unconfigured, the choice is the non-empty `cf-connecting-ip` or else the fallback |
| IpAddress.UnconfiguredTrustsOnlyCloudflare | lib/request.js:21-27 | corrected, unconfigured: two requests that agree on `cf-connecting-ip` get the same choice |
| IpAddress.AsWrittenDiffersOnlyThroughUndefined | lib/request.js:21-22 | the code and the correction differ only when the variable is unset and a non-empty `undefined` header is present |
| IpAddress.GetIpAddress | lib/request.js:19-30 | corrected: the configured header's value verbatim if non-empty (no custom header when unconfigured), else `cf-connecting-ip` verbatim if non-empty, else the fallback's answer; never an empty header value |
| IpAddress.GetIpAddressAsWritten | lib/request.js:19-30 | as written: the value of the header at the key of `CLIENT_IP_HEADER` (`"undefined"` when unset) verbatim if non-empty, else `cf-connecting-ip` verbatim if non-empty, else the fallback's answer |
| IpAddress.CorrectionAgreesWhenConfigured | lib/request.js:19-30 | the corrected and the as-written address agree whenever a custom header is configured, and otherwise unless a non-empty `undefined` header is sent |
| IpAddress.FallbackOnlyWithoutHeaders | lib/request.js:25-29 | when a header is usable, any two fallbacks give the same answer: the fallback is not consulted |
| IpAddress.CloudflareOnly | lib/request.js:24-27 | only `cf-connecting-ip: ip` and nothing configured gives `ip` |
| Country.IsoCode | lib/request.js:76-78 | the ISO code is present exactly when the lookup hit, the record has a country, and the country has a code |
| Country.GetCountry | lib/request.js:60-79 | a non-empty `cf-ipcountry` is returned verbatim and the handle is untouched; a local address gives nothing and the handle is untouched; otherwise the record's ISO code, with the handle set, opened once more only if it was unset; a set handle never changes; a consistent handle stays consistent |
| Country.ShortCircuits | lib/request.js:60-69 | with the header present neither the local-address test nor the database is consulted; for a local address the database is not consulted |
| Country.AnswerIndependentOfHandle | lib/request.js:71-78 | the answer is that of the stateless cascade, whatever the handle's state |
| Country.SessionOpensAtMostOnce | lib/request.js:72-74 | over any sequence of calls the open count is 1 when the handle is set and 0 otherwise, and the handle ends up set iff it was set or some call reached the database |
| Country.FromStartOpensAtMostOnce | lib/request.js:17 | from process start the database is opened at most once, and opened iff some call reached it |
| Country.SessionAnswers | lib/request.js:71-78 | every answer of a sequence of calls is the stateless answer for that call |
| Area.AreaUrl | lib/request.js:105-108 | split at its first `?`, the fetched URL names the API origin and `/location/ip`, and the rest is the signed query |
| Area.SplitSignature | lib/request.js:107 | receiver's split: when it succeeds, the query is the signed part, `&sn=` and an `&`-free signature |
| Area.SplitAppended | lib/request.js:107 | appending `&sn=` and an `&`-free signature to any query splits back into the two |
| Area.SignedQueryVerifies | lib/request.js:105-117 | the sent query is `ak=<ak>&ip=<ip>&sn=<sig>`, where `sig` is the hash over exactly `url?ak=<ak>&ip=<ip>` and the secret key, so `sn` does not sign itself and the receiver accepts it; the only assumption is a hash output without `&` |
| Area.ShapeArea | lib/request.js:110-112 | a truthy status gives `""`; a falsy status throws exactly when `content` or `address_detail` is missing, and otherwise gives a string containing `|`, never `""` |
| Area.ParseArea | lib/request.js:111 | reading an area string back: before and after the first `|` |
| Area.AreaRoundTrip | lib/request.js:110-111 | a successful reply whose province has no `|` reads back as its province and city |
| Area.GetIpArea | lib/request.js:102-113 | for the reply to the signed URL: a truthy status gives `""` and never throws; a falsy status throws exactly when `content` or `address_detail` is missing, and otherwise gives the province text, `|` and the city text (a missing field written `undefined`, a `null` one `null`); the answer is `""` only for a truthy status |
| Area.GetIpAreaReadsBack | lib/request.js:102-113 | the area of a successful reply whose province has no `|` reads back as that reply's province and city |
| ClientInfo.GetClientInfo | lib/request.js:81-91 | the result is an exception exactly when the area step throws, and the handle advances as the country step dictates either way; the record holds the `user-agent` header, the browser and OS parsed from it, the address `getIpAddress` chooses as written (the `undefined` header included when unconfigured), the stateless country of that address, the device of the screen, and the area step's answer for that address |
| ClientInfo.AddressAgreesWithCorrection | lib/request.js:83 | with a custom header configured, or no non-empty `undefined` header sent, the record's address is the corrected one |
| ClientInfo.UndefinedHeaderReachesRecord | lib/request.js:83 | unconfigured, a client's `undefined: 6.6.6.6` header becomes the record's address ahead of `cf-connecting-ip: 1.2.3.4` |
| ClientInfo.JsonBodyHandling | lib/request.js:93-99 | the body is parsed as JSON exactly when `content-type` is present and contains `text/plain` |

## Left out

- The HTTP request to the area API and `response.json()` are network I/O. A
  `fetchArea` oracle maps the URL to the parsed reply; transport errors and a
  hanging request are not modelled.
- `maxmind.open` and the `.mmdb` format are file I/O and a foreign library.
  Opening is a counter in `GeoState`, and `reader.get` is the `dbGet` oracle.
  A failing open, or a `get` that throws on a malformed address, is not
  modelled.
- The internals of `is-localhost-ip`, `request-ip` and `detect-browser` are
  third-party heuristics. They are oracles, and the model does not model
  their rejections.
- `md5` and `encodeURIComponent` are uninterpreted oracles. One lemma assumes
  only that the digest of the one input it signs contains no `&`.
- Concurrent `getCountry` calls racing to open the database are left out. The
  model runs calls one after another; under a race the database can be
  opened more than once.
- `JSON.parse` in `getJsonBody` is a foreign parser. Only the choice between
  parsing and passing the body through is modelled.
- Numbers.ToNumber: coerces only decimal integer numerals, exactly. Fractions
  (`"1366.5"`), exponents (`"1e3"`), `0b`/`0o`/`0B`/`0O` literals, upper-case
  `0X` hexadecimal (`"0X780"` is 1920; a lower-case `x` is removed by the
  split), surrounding whitespace and `"Infinity"` all become `NaN`, although
  JavaScript reads them as numbers. Numerals above 2^53 keep their exact
  value, where JavaScript rounds them to the nearest double.
- IpAddress.GetIpAddress: carries the correction under Findings, so with
  `CLIENT_IP_HEADER` unset it ignores the `undefined` header the code reads;
  `IpAddress.GetIpAddressAsWritten` is the code as written.
- The hard-coded `ak` and `sk` literals are opaque constants and are passed
  in as `ApiKeys`.
- Header names are compared exactly. Node lower-cases incoming names, but
  the configured `CLIENT_IP_HEADER` is used as given.
- A JSON `status` other than an integer or `null` is not modelled.

## Findings

| source | as written | input that shows it | evidently intended | confidence | as-written member | corrected member |
|---|---|---|---|---|---|---|
| lib/request.js:21-22 | with `CLIENT_IP_HEADER` unset, `req.headers[undefined]` reads the header named `"undefined"`, which any client can send | no configured header; headers `undefined: 6.6.6.6` and `cf-connecting-ip: 1.2.3.4`; the answer is `6.6.6.6` | skip the custom header when none is configured, so no client header outranks the proxy's `cf-connecting-ip` | medium; not executed | IpAddress.ChooseIpAsWritten | IpAddress.ChooseIp |

=== FILE: area.dfy ===
/** The area resolver `getIPAreaInBMap` and its signing helper
    `caculateBDAKSN`: a request to Baidu's IP-location API signed with the
    `sn` parameter, and the shaping of the JSON reply into
    `"province|city"`. MD5 (RFC 1321), `encodeURIComponent` (section
    19.2.6.5 of ECMAScript 2022) and the HTTP round trip are oracles. */
module Area {
  import opened JsValues
  import Text

  const ApiOrigin := "http://api.map.baidu.com"
  const LocationPath := "/location/ip"

  /** The access key `ak` and the secret key `sk` of the API account. */
  datatype ApiKeys = ApiKeys(ak: string, sk: string)

  /** The hash and the percent-encoder the signature is built from. */
  datatype Hashing = Hashing(md5: string -> string, encodeUriComponent: string -> string)

  /** `${ip}` in a template literal: the `null` that the client-IP heuristics
      return when they find nothing is written as "null". */
  function IpText(ip: Option<string>): (t: string)
    ensures ip.Some? ==> t == ip.value
    ensures ip.None? ==> t == "null"
  {
    if ip.Some? then ip.value else "null"
  }

  /** The query before signing: `ak=<ak>&ip=<ip>`. */
  function UnsignedQuery(ak: string, ip: string): string {
    "ak=" + ak + "&ip=" + ip
  }

  /** `caculateBDAKSN(sk, url, query)`: the hash of the percent-encoded
      `url?query` followed by the secret key. */
  function Signature(sk: string, url: string, query: string, h: Hashing): string {
    h.md5(h.encodeUriComponent(url + "?" + query + sk))
  }

  /** The query actually sent: the unsigned query, then `&sn=` and its signature. */
  function SignedQuery(keys: ApiKeys, url: string, ip: string, h: Hashing): string {
    var query := UnsignedQuery(keys.ak, ip);
    query + "&sn=" + Signature(keys.sk, url, query, h)
  }

  /** The URL fetched for an address. Read back by splitting at the first
      `?`, it names the location endpoint and carries the signed query. */
  function AreaUrl(keys: ApiKeys, ip: Option<string>, h: Hashing): (u: string)
    ensures Text.FirstField(u, '?') == ApiOrigin + LocationPath
    ensures |u| > |ApiOrigin + LocationPath| && u[|ApiOrigin + LocationPath|] == '?'
    ensures u[|ApiOrigin + LocationPath| + 1..] == SignedQuery(keys, LocationPath, IpText(ip), h)
  {
    var endpoint := ApiOrigin + LocationPath;
    var query := SignedQuery(keys, LocationPath, IpText(ip), h);
    assert '?' !in endpoint;
    assert endpoint + "?" + query == endpoint + ['?'] + query;
    Text.FirstFieldOfJoin(endpoint, '?', query);
    endpoint + "?" + query
  }

  /** The receiving side: split a signed query at its last `&` into the part
      that was signed and the `sn` value. */
  function SplitSignature(q: string): (r: Option<(string, string)>)
    ensures r.Some? ==> q == r.value.0 + "&sn=" + r.value.1 && '&' !in r.value.1
  {
    var i := Text.LastIndexOf(q, '&');
    if 0 <= i && i + 4 <= |q| && q[i + 1..i + 4] == "sn=" then
      assert q == q[..i] + "&sn=" + q[i + 4..];
      Some((q[..i], q[i + 4..]))
    else None
  }

  /** The receiving side's check: the `sn` value is the signature of the rest. */
  predicate SignatureValid(sk: string, url: string, q: string, h: Hashing) {
    match SplitSignature(q)
    case None => false
    case Some((query, sn)) => sn == Signature(sk, url, query, h)
  }

  /** Splitting at the last `&` finds the `&sn=` that was appended, whatever
      the query before it contains, as long as the signature has no `&`. */
  lemma SplitAppended(query: string, sn: string)
    requires '&' !in sn
    ensures SplitSignature(query + "&sn=" + sn) == Some((query, sn))
  {
    var q := query + "&sn=" + sn;
    var i := Text.LastIndexOf(q, '&');
    assert q[|query|] == '&';
    forall j | |query| < j < |q|
      ensures q[j] != '&'
    {
      if j >= |query| + 4 {
        assert q[j] == sn[j - |query| - 4];
      }
    }
    assert i == |query|;
    assert q[..i] == query;
    assert q[i + 4..] == sn;
  }

  /** The query sent for any address splits back into the unsigned query and
      a signature computed over exactly `url?query` and the secret key, so
      `sn` is not part of its own input and the receiver accepts it. The only
      assumption on the hash is that its output has no `&`, as a hexadecimal
      MD5 digest has not. */
  lemma SignedQueryVerifies(keys: ApiKeys, url: string, ip: string, h: Hashing)
    requires '&' !in Signature(keys.sk, url, UnsignedQuery(keys.ak, ip), h)
    ensures SplitSignature(SignedQuery(keys, url, ip, h))
         == Some((UnsignedQuery(keys.ak, ip), Signature(keys.sk, url, UnsignedQuery(keys.ak, ip), h)))
    ensures SignatureValid(keys.sk, url, SignedQuery(keys, url, ip, h), h)
  {
    SplitAppended(UnsignedQuery(keys.ak, ip), Signature(keys.sk, url, UnsignedQuery(keys.ak, ip), h));
  }

  /** A string field of the JSON reply: missing, `null`, or a string. */
  datatype JsonField = Missing | Null | Str(text: string)

  /** The address fields of a successful reply. */
  datatype AddressDetail = AddressDetail(province: JsonField, city: JsonField)
  datatype AreaContent = AreaContent(addressDetail: Option<AddressDetail>)

  /** The parsed JSON reply: a numeric `status` (0 on success) and `content`. */
  datatype AreaResponse = AreaResponse(status: Option<int>, content: Option<AreaContent>)

  /** Reading `address_detail` or `province` of an undefined value throws. */
  datatype AreaError = PropertyOfUndefined

  /** `!data.status`: an absent status or 0. */
  predicate StatusFalsy(status: Option<int>) {
    status.None? || status.value == 0
  }

  /** A field concatenated into a string: a missing field is written
      "undefined" and a `null` one "null". */
  function FieldText(v: JsonField): string {
    match v
    case Missing => "undefined"
    case Null => "null"
    case Str(t) => t
  }

  /** The reply shaped into the area string, or the exception the property
      accesses throw when a falsy status comes without an address. */
  function ShapeArea(resp: AreaResponse): (r: Result<string, AreaError>)
    ensures !StatusFalsy(resp.status) ==> r == Ok("")
    ensures r.Err? <==> StatusFalsy(resp.status)
                        && (resp.content.None? || resp.content.value.addressDetail.None?)
    ensures StatusFalsy(resp.status) && r.Ok? ==> '|' in r.value
  {
    if StatusFalsy(resp.status) then
      match resp.content
      case None => Err(PropertyOfUndefined)
      case Some(AreaContent(None)) => Err(PropertyOfUndefined)
      case Some(AreaContent(Some(detail))) =>
        var s := FieldText(detail.province) + "|" + FieldText(detail.city);
        assert s[|FieldText(detail.province)|] == '|';
        Ok(s)
    else Ok("")
  }

  /** The consumer's reading of an area string: the text before the first
      `|` and the text after it. */
  function ParseArea(s: string): (r: Option<(string, string)>)
    ensures r.Some? ==> s == r.value.0 + "|" + r.value.1 && '|' !in r.value.0
    ensures r.None? ==> '|' !in s
  {
    var province := Text.FirstField(s, '|');
    if |province| == |s| then
      assert province == s;
      None
    else
      assert s == province + "|" + s[|province| + 1..];
      Some((province, s[|province| + 1..]))
  }

  /** A successful reply whose province has no `|` shapes into a string
      that reads back as the reply's province and city. */
  lemma AreaRoundTrip(resp: AreaResponse)
    requires StatusFalsy(resp.status)
    requires resp.content.Some? && resp.content.value.addressDetail.Some?
    requires '|' !in FieldText(resp.content.value.addressDetail.value.province)
    ensures ShapeArea(resp).Ok?
    ensures ParseArea(ShapeArea(resp).value)
         == Some((FieldText(resp.content.value.addressDetail.value.province),
                  FieldText(resp.content.value.addressDetail.value.city)))
  {
    var detail := resp.content.value.addressDetail.value;
    var p, c := FieldText(detail.province), FieldText(detail.city);
    assert p + "|" + c == p + ['|'] + c;
    Text.FirstFieldOfJoin(p, '|', c);
  }

  /** `getIPAreaInBMap(ip)`: fetch the signed URL and shape the reply. The
      answer is never absent: either an area, the empty sentinel, or a throw. */
  function GetIpArea(ip: Option<string>, keys: ApiKeys, h: Hashing,
                     fetch: string -> AreaResponse): (r: Result<string, AreaError>)
    ensures var resp := fetch(AreaUrl(keys, ip, h));
      && (!StatusFalsy(resp.status) ==> r == Ok(""))
      && (r.Err? <==> StatusFalsy(resp.status)
                      && (resp.content.None? || resp.content.value.addressDetail.None?))
      && (StatusFalsy(resp.status) && r.Ok? ==>
            r.value == FieldText(resp.content.value.addressDetail.value.province) + "|"
                       + FieldText(resp.content.value.addressDetail.value.city))
    ensures r.Ok? ==> (r.value == "" <==> !StatusFalsy(fetch(AreaUrl(keys, ip, h)).status))
  {
    ShapeArea(fetch(AreaUrl(keys, ip, h)))
  }

  /** The area of a successful reply to the signed URL reads back as the
      reply's province and city, when the province has no `|`. */
  lemma GetIpAreaReadsBack(ip: Option<string>, keys: ApiKeys, h: Hashing,
                           fetch: string -> AreaResponse)
    requires var resp := fetch(AreaUrl(keys, ip, h));
      && StatusFalsy(resp.status)
      && resp.content.Some? && resp.content.value.addressDetail.Some?
      && '|' !in FieldText(resp.content.value.addressDetail.value.province)
    ensures var resp := fetch(AreaUrl(keys, ip, h));
      && GetIpArea(ip, keys, h, fetch).Ok?
      && ParseArea(GetIpArea(ip, keys, h, fetch).value)
           == Some((FieldText(resp.content.value.addressDetail.value.province),
                    FieldText(resp.content.value.addressDetail.value.city)))
  {
    AreaRoundTrip(fetch(AreaUrl(keys, ip, h)));
  }
}

=== FILE: client_info.dfy ===
/** `getClientInfo`, which runs the four resolvers in order for one request,
    and `getJsonBody`'s choice between parsing the body and passing it on.
    Every collaborator the module imports is an oracle in `Collaborators`. */
module ClientInfo {
  import opened JsValues
  import Text
  import Device
  import IpAddress
  import Country
  import Area

  /** The third-party code the resolvers call, as functions of their inputs:
      the generic client-IP heuristics, the local-address test, the database
      lookup, the user-agent parsers, the signature primitives and the HTTP
      round trip to the area API (URL in, parsed JSON reply out). */
  datatype Collaborators = Collaborators(
    clientIp: Request -> Option<string>,
    isLocalhost: Option<string> -> bool,
    dbGet: Option<string> -> Option<Country.GeoRecord>,
    browserName: Option<string> -> Option<string>,
    detectOs: Option<string> -> Option<string>,
    hashing: Area.Hashing,
    fetchArea: string -> Area.AreaResponse)

  /** The deployment's settings: `CLIENT_IP_HEADER`, the device configuration
      and the area API's keys. */
  datatype Settings = Settings(
    clientIpHeader: Option<string>,
    devices: Device.DeviceConfig,
    keys: Area.ApiKeys)

  datatype Info = Info(
    userAgent: Option<string>,
    browser: Option<string>,
    os: Option<string>,
    ip: Option<string>,
    country: Option<string>,
    device: Option<Device.DeviceClass>,
    area: string)

  /** The record, or the exception of the area step, and the database handle
      afterwards (opened even when the area step throws). */
  datatype Resolution = Resolution(info: Result<Info, Area.AreaError>, state: Country.GeoState)

  const UserAgentHeader := "user-agent"

  /** `getClientInfo(req, { screen })`, with the address exactly as
      `getIpAddress` chooses it, so the country and the area are looked up for
      that address. */
  function GetClientInfo(req: Request, screen: Option<string>, cfg: Settings,
                         co: Collaborators, st: Country.GeoState): (r: Resolution)
    ensures var ip := IpAddress.GetIpAddressAsWritten(req, cfg.clientIpHeader, co.clientIp);
      && r.state == Country.GetCountry(st, req.headers, ip, co.isLocalhost, co.dbGet).state
      && (r.info.Err? <==>
            Area.GetIpArea(ip, cfg.keys, co.hashing, co.fetchArea).Err?)
    ensures r.info.Ok? ==>
      var ip := IpAddress.GetIpAddressAsWritten(req, cfg.clientIpHeader, co.clientIp);
      var ua := Header(req.headers, UserAgentHeader);
      && r.info.value.userAgent == ua
      && r.info.value.browser == co.browserName(ua)
      && r.info.value.os == co.detectOs(ua)
      && r.info.value.ip == ip
      && r.info.value.country == Country.ResolveCountry(req.headers, ip, co.isLocalhost, co.dbGet)
      && r.info.value.device == Device.GetDevice(screen, co.browserName(ua), co.detectOs(ua), cfg.devices)
      && (r.info.value.device.None? <==> !Truthy(screen))
      && Area.GetIpArea(ip, cfg.keys, co.hashing, co.fetchArea) == Ok(r.info.value.area)
  {
    var userAgent := Header(req.headers, UserAgentHeader);
    var ip := IpAddress.GetIpAddressAsWritten(req, cfg.clientIpHeader, co.clientIp);
    var country := Country.GetCountry(st, req.headers, ip, co.isLocalhost, co.dbGet);
    Country.AnswerIndependentOfHandle(st, req.headers, ip, co.isLocalhost, co.dbGet);
    var browser := co.browserName(userAgent);
    var os := co.detectOs(userAgent);
    var device := Device.GetDevice(screen, browser, os, cfg.devices);
    match Area.GetIpArea(ip, cfg.keys, co.hashing, co.fetchArea)
    case Err(e) => Resolution(Err(e), country.state)
    case Ok(area) =>
      Resolution(Ok(Info(userAgent, browser, os, ip, country.country, device, area)), country.state)
  }

  /** The record's address is the corrected one whenever a custom header is
      configured, or no non-empty "undefined" header is sent. */
  lemma AddressAgreesWithCorrection(req: Request, screen: Option<string>, cfg: Settings,
                                    co: Collaborators, st: Country.GeoState)
    requires cfg.clientIpHeader.Some? || !Truthy(Header(req.headers, "undefined"))
    ensures GetClientInfo(req, screen, cfg, co, st).info.Ok? ==>
      GetClientInfo(req, screen, cfg, co, st).info.value.ip
        == IpAddress.GetIpAddress(req, cfg.clientIpHeader, co.clientIp)
  {
    IpAddress.CorrectionAgreesWhenConfigured(req, cfg.clientIpHeader, co.clientIp);
  }

  /** Unconfigured, a client's "undefined" header becomes the record's address,
      ahead of the proxy's `cf-connecting-ip`. */
  lemma UndefinedHeaderReachesRecord(screen: Option<string>, cfg: Settings,
                                     co: Collaborators, st: Country.GeoState, socket: Option<string>)
    requires cfg.clientIpHeader.None?
    ensures var req := Request(map["undefined" := "6.6.6.6", "cf-connecting-ip" := "1.2.3.4"], socket);
      GetClientInfo(req, screen, cfg, co, st).info.Ok? ==>
        GetClientInfo(req, screen, cfg, co, st).info.value.ip == Some("6.6.6.6")
  {
    var req := Request(map["undefined" := "6.6.6.6", "cf-connecting-ip" := "1.2.3.4"], socket);
    assert Header(req.headers, "undefined") == Some("6.6.6.6");
  }

  const ContentTypeHeader := "content-type"
  const PlainText := "text/plain"

  /** What `getJsonBody` does with the body. */
  datatype BodyHandling = ParseJson | AsIs

  /** `getJsonBody(req)`'s test: the body is parsed as JSON text exactly when
      the `content-type` header (missing or empty reading as "") contains
      "text/plain" anywhere; otherwise it is returned as it is. */
  method JsonBodyHandling(headers: Headers) returns (handling: BodyHandling)
    ensures handling == ParseJson <==>
      Header(headers, ContentTypeHeader).Some? && Text.Contains(headers[ContentTypeHeader], PlainText)
  {
    var contentType := Header(headers, ContentTypeHeader);
    var text := if Truthy(contentType) then contentType.value else "";
    var k := Text.IndexOf(text, PlainText);
    if contentType.Some? && contentType.value == "" {
      assert !Text.OccursAt(contentType.value, PlainText, 0);
    }
    handling := if k != -1 then ParseJson else AsIs;
  }
}

=== FILE: country.dfy ===
/** The country resolver `getCountry`: the Cloudflare country header, else
    nothing for a local address, else a lookup in the offline GeoLite2
    database, whose handle is opened on first use and kept for the life of
    the process. The local-address test and the database lookup are
    oracles; the handle is a `GeoState` threaded through the calls. */
module Country {
  import opened JsValues

  const CloudflareCountryHeader := "cf-ipcountry"

  /** The parts of a database record the resolver reads: `country.iso_code`. */
  datatype CountryRecord = CountryRecord(isoCode: Option<string>)
  datatype GeoRecord = GeoRecord(country: Option<CountryRecord>)

  /** `result?.country?.iso_code`: absent when the lookup missed or a field is missing. */
  function IsoCode(result: Option<GeoRecord>): (code: Option<string>)
    ensures code.Some? <==> result.Some? && result.value.country.Some?
                            && result.value.country.value.isoCode.Some?
    ensures code.Some? ==> code == result.value.country.value.isoCode
  {
    match result
    case None => None
    case Some(GeoRecord(None)) => None
    case Some(GeoRecord(Some(CountryRecord(c)))) => c
  }

  /** The module-level `lookup` handle: whether the database has been opened,
      and how many times it has been opened so far. */
  datatype GeoState = GeoState(isOpen: bool, opens: nat)

  /** The state when the process starts: no handle, nothing opened. */
  const Initial := GeoState(false, 0)

  /** The handle is set exactly when the database has been opened, once. */
  predicate OpenedOnce(st: GeoState) {
    st.opens == if st.isOpen then 1 else 0
  }

  /** The outcome of one call: the country, and the handle afterwards. */
  datatype Lookup = Lookup(country: Option<string>, state: GeoState)

  /** The call gets past the header and the local-address test to the database. */
  predicate ReachesDatabase(headers: Headers, ip: Option<string>, isLocalhost: Option<string> -> bool) {
    !Truthy(Header(headers, CloudflareCountryHeader)) && !isLocalhost(ip)
  }

  /** `getCountry(req, ip)` run against the handle `st`. */
  function GetCountry(st: GeoState, headers: Headers, ip: Option<string>,
                      isLocalhost: Option<string> -> bool,
                      dbGet: Option<string> -> Option<GeoRecord>): (r: Lookup)
    ensures Truthy(Header(headers, CloudflareCountryHeader)) ==>
      r.country == Header(headers, CloudflareCountryHeader) && r.state == st
    ensures !Truthy(Header(headers, CloudflareCountryHeader)) && isLocalhost(ip) ==>
      r.country == None && r.state == st
    ensures ReachesDatabase(headers, ip, isLocalhost) ==>
      && r.country == IsoCode(dbGet(ip))
      && r.state.isOpen
      && r.state.opens == if st.isOpen then st.opens else st.opens + 1
    ensures st.isOpen ==> r.state == st
    ensures OpenedOnce(st) ==> OpenedOnce(r.state)
  {
    var country := Header(headers, CloudflareCountryHeader);
    if Truthy(country) then Lookup(country, st)
    else if isLocalhost(ip) then Lookup(None, st)
    else
      var handle := if !st.isOpen then GeoState(true, st.opens + 1) else st;
      Lookup(IsoCode(dbGet(ip)), handle)
  }

  /** A header answer consults neither the local-address test nor the
      database, and a local address does not consult the database. */
  lemma ShortCircuits(st: GeoState, headers: Headers, ip: Option<string>,
                      l1: Option<string> -> bool, l2: Option<string> -> bool,
                      db1: Option<string> -> Option<GeoRecord>,
                      db2: Option<string> -> Option<GeoRecord>)
    ensures Truthy(Header(headers, CloudflareCountryHeader)) ==>
      GetCountry(st, headers, ip, l1, db1) == GetCountry(st, headers, ip, l2, db2)
    ensures l1(ip) ==> GetCountry(st, headers, ip, l1, db1) == GetCountry(st, headers, ip, l1, db2)
  {
  }

  /** The same cascade with no handle at all: what `getCountry` answers when
      opening is taken to be free. */
  function ResolveCountry(headers: Headers, ip: Option<string>,
                          isLocalhost: Option<string> -> bool,
                          dbGet: Option<string> -> Option<GeoRecord>): Option<string>
  {
    var country := Header(headers, CloudflareCountryHeader);
    if Truthy(country) then country
    else if isLocalhost(ip) then None
    else IsoCode(dbGet(ip))
  }

  /** Lazy opening is invisible in the answers: every handle state gives the
      answer of the stateless cascade. */
  lemma AnswerIndependentOfHandle(st: GeoState, headers: Headers, ip: Option<string>,
                                  isLocalhost: Option<string> -> bool,
                                  dbGet: Option<string> -> Option<GeoRecord>)
    ensures GetCountry(st, headers, ip, isLocalhost, dbGet).country
         == ResolveCountry(headers, ip, isLocalhost, dbGet)
  {
  }

  /** One call of a sequence: the request's headers and resolved address. */
  datatype CountryCall = CountryCall(headers: Headers, ip: Option<string>)

  /** The answers and the final handle of a sequence of calls, in order. */
  datatype Session = Session(countries: seq<Option<string>>, state: GeoState)

  function RunCountries(st: GeoState, calls: seq<CountryCall>,
                        isLocalhost: Option<string> -> bool,
                        dbGet: Option<string> -> Option<GeoRecord>): (s: Session)
    ensures |s.countries| == |calls|
    decreases |calls|
  {
    if calls == [] then Session([], st)
    else
      var first := GetCountry(st, calls[0].headers, calls[0].ip, isLocalhost, dbGet);
      var rest := RunCountries(first.state, calls[1..], isLocalhost, dbGet);
      Session([first.country] + rest.countries, rest.state)
  }

  /** Some call of the sequence gets as far as the database. */
  predicate SomeCallReachesDatabase(calls: seq<CountryCall>, isLocalhost: Option<string> -> bool) {
    exists i :: 0 <= i < |calls| && ReachesDatabase(calls[i].headers, calls[i].ip, isLocalhost)
  }

  /** Over any sequence of calls the handle keeps `OpenedOnce`, and is set at
      the end exactly when it was set at the start or some call reached the
      database. */
  lemma {:induction false} SessionOpensAtMostOnce(st: GeoState, calls: seq<CountryCall>,
                                                  isLocalhost: Option<string> -> bool,
                                                  dbGet: Option<string> -> Option<GeoRecord>)
    requires OpenedOnce(st)
    ensures OpenedOnce(RunCountries(st, calls, isLocalhost, dbGet).state)
    ensures RunCountries(st, calls, isLocalhost, dbGet).state.isOpen
        <==> st.isOpen || SomeCallReachesDatabase(calls, isLocalhost)
    decreases |calls|
  {
    if calls != [] {
      var first := GetCountry(st, calls[0].headers, calls[0].ip, isLocalhost, dbGet);
      SessionOpensAtMostOnce(first.state, calls[1..], isLocalhost, dbGet);
      if SomeCallReachesDatabase(calls[1..], isLocalhost) {
        var i :| 0 <= i < |calls[1..]| && ReachesDatabase(calls[1..][i].headers, calls[1..][i].ip, isLocalhost);
        assert calls[i + 1] == calls[1..][i];
      }
      if SomeCallReachesDatabase(calls, isLocalhost) && !ReachesDatabase(calls[0].headers, calls[0].ip, isLocalhost) {
        var i :| 0 <= i < |calls| && ReachesDatabase(calls[i].headers, calls[i].ip, isLocalhost);
        assert calls[1..][i - 1] == calls[i];
      }
    }
  }

  /** From process start the database is opened at most once, and opened
      exactly when some call needed it. */
  lemma FromStartOpensAtMostOnce(calls: seq<CountryCall>,
                                 isLocalhost: Option<string> -> bool,
                                 dbGet: Option<string> -> Option<GeoRecord>)
    ensures RunCountries(Initial, calls, isLocalhost, dbGet).state.opens <= 1
    ensures RunCountries(Initial, calls, isLocalhost, dbGet).state.opens == 1
        <==> SomeCallReachesDatabase(calls, isLocalhost)
  {
    SessionOpensAtMostOnce(Initial, calls, isLocalhost, dbGet);
  }

  /** Every answer of a session is the stateless answer for its call. */
  lemma {:induction false} SessionAnswers(st: GeoState, calls: seq<CountryCall>,
                                          isLocalhost: Option<string> -> bool,
                                          dbGet: Option<string> -> Option<GeoRecord>)
    ensures forall i :: 0 <= i < |calls| ==>
      RunCountries(st, calls, isLocalhost, dbGet).countries[i]
        == ResolveCountry(calls[i].headers, calls[i].ip, isLocalhost, dbGet)
    decreases |calls|
  {
    if calls != [] {
      var first := GetCountry(st, calls[0].headers, calls[0].ip, isLocalhost, dbGet);
      SessionAnswers(first.state, calls[1..], isLocalhost, dbGet);
      AnswerIndependentOfHandle(st, calls[0].headers, calls[0].ip, isLocalhost, dbGet);
      var s := RunCountries(st, calls, isLocalhost, dbGet);
      var rest := RunCountries(first.state, calls[1..], isLocalhost, dbGet);
      forall i | 0 < i < |calls|
        ensures s.countries[i] == ResolveCountry(calls[i].headers, calls[i].ip, isLocalhost, dbGet)
      {
        assert s.countries[i] == rest.countries[i - 1];
        assert calls[1..][i - 1] == calls[i];
      }
    }
  }
}

=== FILE: device.dfy ===
/** The device classifier `getDevice`: from a `"WxH"` screen string and an
    operating-system name to one of four device classes. The OS families and
    the width thresholds are configuration, passed in as a `DeviceConfig`. */
module Device {
  import opened JsValues
  import opened Numbers

  datatype DeviceClass = Desktop | Laptop | Tablet | Mobile

  /** The OS lists and the three width thresholds of the configuration. */
  datatype DeviceConfig = DeviceConfig(
    desktopOs: seq<string>,
    mobileOs: seq<string>,
    desktopWidth: int,
    laptopWidth: int,
    mobileWidth: int)

  /** The desktop-family OS that is always a laptop. */
  const ChromeOs := "Chrome OS"

  /** The mobile-family OS that is always a tablet. */
  const AmazonOs := "Amazon OS"

  /** `list.includes(os)`; an undetected (undefined) OS is in no list. */
  predicate Includes(list: seq<string>, os: Option<string>) {
    os.Some? && os.value in list
  }

  /** Size order of the classes, smallest first. */
  function Rank(d: DeviceClass): (k: nat)
    ensures k < 4
  {
    match d
    case Mobile => 0
    case Tablet => 1
    case Laptop => 2
    case Desktop => 3
  }

  /** The classification once the screen is known to be present. The desktop
      family takes precedence over the mobile family, and an OS in neither
      falls through to the width buckets. */
  function Classify(w: Width, os: Option<string>, cfg: DeviceConfig): (d: DeviceClass)
    ensures Includes(cfg.desktopOs, os) ==>
      && (d == Laptop || d == Desktop)
      && (d == Laptop <==> os == Some(ChromeOs) || Less(w, cfg.desktopWidth))
    ensures !Includes(cfg.desktopOs, os) && Includes(cfg.mobileOs, os) ==>
      && (d == Tablet || d == Mobile)
      && (d == Tablet <==> os == Some(AmazonOs) || Greater(w, cfg.mobileWidth))
    ensures !Includes(cfg.desktopOs, os) && !Includes(cfg.mobileOs, os) ==>
      && (d == Desktop <==> AtLeast(w, cfg.desktopWidth))
      && (d == Laptop <==> !AtLeast(w, cfg.desktopWidth) && AtLeast(w, cfg.laptopWidth))
      && (d == Tablet <==> !AtLeast(w, cfg.desktopWidth) && !AtLeast(w, cfg.laptopWidth)
                           && AtLeast(w, cfg.mobileWidth))
      && (d == Mobile <==> w == NaN || (w.value < cfg.desktopWidth && w.value < cfg.laptopWidth
                                        && w.value < cfg.mobileWidth))
  {
    if Includes(cfg.desktopOs, os) then
      if os == Some(ChromeOs) || Less(w, cfg.desktopWidth) then Laptop else Desktop
    else if Includes(cfg.mobileOs, os) then
      if os == Some(AmazonOs) || Greater(w, cfg.mobileWidth) then Tablet else Mobile
    else if AtLeast(w, cfg.desktopWidth) then Desktop
    else if AtLeast(w, cfg.laptopWidth) then Laptop
    else if AtLeast(w, cfg.mobileWidth) then Tablet
    else Mobile
  }

  /** `getDevice(screen, browser, os)`: nothing for an absent or empty screen,
      otherwise the class of the screen's width. */
  function GetDevice(screen: Option<string>, browser: Option<string>, os: Option<string>,
                     cfg: DeviceConfig): (r: Option<DeviceClass>)
    ensures r.None? <==> !Truthy(screen)
    ensures r.Some? ==> r.value == Classify(ScreenWidth(screen.value), os, cfg)
  {
    if !Truthy(screen) then None
    else Some(Classify(ScreenWidth(screen.value), os, cfg))
  }

  /** The browser argument is accepted but never consulted. */
  lemma BrowserIgnored(screen: Option<string>, b1: Option<string>, b2: Option<string>,
                       os: Option<string>, cfg: DeviceConfig)
    ensures GetDevice(screen, b1, os, cfg) == GetDevice(screen, b2, os, cfg)
  {
  }

  /** A width that does not coerce to a number lands in the smaller class of
      each family, except that the desktop family reads it as a desktop. */
  lemma NaNWidth(os: Option<string>, cfg: DeviceConfig)
    ensures Classify(NaN, os, cfg) ==
      if Includes(cfg.desktopOs, os) then (if os == Some(ChromeOs) then Laptop else Desktop)
      else if Includes(cfg.mobileOs, os) then (if os == Some(AmazonOs) then Tablet else Mobile)
      else Mobile
  {
  }

  /** With strictly descending thresholds, an unlisted OS is bucketed by the
      half-open width intervals `[desktop, ∞)`, `[laptop, desktop)`,
      `[mobile, laptop)` and everything below (or `NaN`). */
  lemma UnlistedBuckets(w: Width, os: Option<string>, cfg: DeviceConfig)
    requires !Includes(cfg.desktopOs, os) && !Includes(cfg.mobileOs, os)
    requires cfg.desktopWidth > cfg.laptopWidth > cfg.mobileWidth
    ensures Classify(w, os, cfg) == Desktop <==> w.Num? && cfg.desktopWidth <= w.value
    ensures Classify(w, os, cfg) == Laptop <==> w.Num? && cfg.laptopWidth <= w.value < cfg.desktopWidth
    ensures Classify(w, os, cfg) == Tablet <==> w.Num? && cfg.mobileWidth <= w.value < cfg.laptopWidth
    ensures Classify(w, os, cfg) == Mobile <==> w == NaN || w.value < cfg.mobileWidth
  {
  }

  /** For any fixed OS and configuration, a wider screen is never put in a
      smaller class. */
  lemma MonotoneInWidth(a: int, b: int, os: Option<string>, cfg: DeviceConfig)
    requires a <= b
    ensures Rank(Classify(Num(a), os, cfg)) <= Rank(Classify(Num(b), os, cfg))
  {
  }

  /** End to end: a screen string written as `"<width>x<height>"` is
      classified by its width alone. */
  lemma DeviceOfScreen(width: nat, height: string, browser: Option<string>,
                       os: Option<string>, cfg: DeviceConfig)
    ensures GetDevice(Some(Decimal(width) + "x" + height), browser, os, cfg)
         == Some(Classify(Num(width), os, cfg))
  {
    ScreenWidthOfDecimal(width, height);
  }

  /** "Chrome OS" in the desktop family is a laptop and "Amazon OS" in the
      mobile family (but not the desktop family) is a tablet, whatever the screen. */
  lemma NamedOsFixed(screen: string, browser: Option<string>, cfg: DeviceConfig)
    requires screen != ""
    ensures ChromeOs in cfg.desktopOs ==>
      GetDevice(Some(screen), browser, Some(ChromeOs), cfg) == Some(Laptop)
    ensures AmazonOs !in cfg.desktopOs && AmazonOs in cfg.mobileOs ==>
      GetDevice(Some(screen), browser, Some(AmazonOs), cfg) == Some(Tablet)
  {
  }
}

=== FILE: ip_address.dfy ===
/** The client-IP extractor `getIpAddress`: a configured trusted header, then
    the Cloudflare header, then the generic client-IP heuristics. No check is
    made that the value looks like an IP address. */
module IpAddress {
  import opened JsValues

  const CloudflareIpHeader := "cf-connecting-ip"

  /** The property key JavaScript uses for `obj[key]`: an unset environment
      variable (`undefined`) becomes the string "undefined". */
  function PropertyKey(name: Option<string>): (k: string)
    ensures name.Some? ==> k == name.value
    ensures name.None? ==> k == "undefined"
  {
    if name.Some? then name.value else "undefined"
  }

  /** Where the address comes from: a header value, or the fallback heuristics. */
  datatype IpChoice = FromHeader(ip: string) | UseFallback

  /** The header cascade exactly as written: `req.headers[process.env.CLIENT_IP_HEADER]`
      is read even when the variable is unset, and then reads the header named
      "undefined". */
  function ChooseIpAsWritten(headers: Headers, clientIpHeader: Option<string>): (c: IpChoice)
    ensures c.FromHeader? ==> c.ip != ""
    ensures Truthy(Header(headers, PropertyKey(clientIpHeader))) ==>
      c == FromHeader(headers[PropertyKey(clientIpHeader)])
    ensures !Truthy(Header(headers, PropertyKey(clientIpHeader))) ==>
      c == if Truthy(Header(headers, CloudflareIpHeader))
           then FromHeader(headers[CloudflareIpHeader]) else UseFallback
  {
    var custom := Header(headers, PropertyKey(clientIpHeader));
    var cloudflare := Header(headers, CloudflareIpHeader);
    if Truthy(custom) then FromHeader(custom.value)
    else if Truthy(cloudflare) then FromHeader(cloudflare.value)
    else UseFallback
  }

  /** With `CLIENT_IP_HEADER` unset, a client that sends a header named
      "undefined" chooses its own address, ahead of the proxy's
      `cf-connecting-ip`. */
  lemma UndefinedHeaderIsTrusted()
    ensures ChooseIpAsWritten(map["undefined" := "6.6.6.6", "cf-connecting-ip" := "1.2.3.4"], None)
         == FromHeader("6.6.6.6")
  {
    var h := map["undefined" := "6.6.6.6", "cf-connecting-ip" := "1.2.3.4"];
    assert Header(h, "undefined") == Some("6.6.6.6");
  }

  /** The header cascade as intended: the custom header is consulted only when
      one is configured, so in an unconfigured deployment no header but
      `cf-connecting-ip` decides the choice (the fallback heuristics may
      still read others). */
  function ChooseIp(headers: Headers, clientIpHeader: Option<string>): (c: IpChoice)
    ensures c.FromHeader? ==> c.ip != ""
    ensures clientIpHeader.Some? ==> c == ChooseIpAsWritten(headers, clientIpHeader)
    ensures clientIpHeader.None? ==>
      c == if Truthy(Header(headers, CloudflareIpHeader))
           then FromHeader(headers[CloudflareIpHeader]) else UseFallback
  {
    var custom := if clientIpHeader.Some? then Header(headers, clientIpHeader.value) else None;
    var cloudflare := Header(headers, CloudflareIpHeader);
    if Truthy(custom) then FromHeader(custom.value)
    else if Truthy(cloudflare) then FromHeader(cloudflare.value)
    else UseFallback
  }

  /** Unconfigured, the choice depends on no header but `cf-connecting-ip`. */
  lemma UnconfiguredTrustsOnlyCloudflare(h1: Headers, h2: Headers)
    requires Header(h1, CloudflareIpHeader) == Header(h2, CloudflareIpHeader)
    ensures ChooseIp(h1, None) == ChooseIp(h2, None)
  {
  }

  /** The two versions differ only when the variable is unset and the request
      carries a non-empty header named "undefined". */
  lemma AsWrittenDiffersOnlyThroughUndefined(headers: Headers, clientIpHeader: Option<string>)
    ensures ChooseIpAsWritten(headers, clientIpHeader) != ChooseIp(headers, clientIpHeader) ==>
      clientIpHeader.None? && Truthy(Header(headers, "undefined"))
  {
  }

  /** `getIpAddress(req)` exactly as written, on top of `ChooseIpAsWritten`:
      with the variable unset it still reads the header named "undefined". */
  function GetIpAddressAsWritten(req: Request, clientIpHeader: Option<string>,
                                 clientIp: Request -> Option<string>): (ip: Option<string>)
    ensures Truthy(ip) || ip == clientIp(req)
    ensures Truthy(Header(req.headers, PropertyKey(clientIpHeader))) ==>
      ip == Header(req.headers, PropertyKey(clientIpHeader))
    ensures !Truthy(Header(req.headers, PropertyKey(clientIpHeader)))
            && Truthy(Header(req.headers, CloudflareIpHeader)) ==>
      ip == Header(req.headers, CloudflareIpHeader)
    ensures !Truthy(Header(req.headers, PropertyKey(clientIpHeader)))
            && !Truthy(Header(req.headers, CloudflareIpHeader)) ==>
      ip == clientIp(req)
  {
    match ChooseIpAsWritten(req.headers, clientIpHeader)
    case FromHeader(v) => Some(v)
    case UseFallback => clientIp(req)
  }

  /** `getIpAddress(req)` with the correction of `ChooseIp`: the chosen header
      value verbatim, or whatever the generic client-IP heuristics
      (`clientIp`) make of the request. */
  function GetIpAddress(req: Request, clientIpHeader: Option<string>,
                        clientIp: Request -> Option<string>): (ip: Option<string>)
    ensures Truthy(ip) || ip == clientIp(req)
    ensures clientIpHeader.Some? && Truthy(Header(req.headers, clientIpHeader.value)) ==>
      ip == Header(req.headers, clientIpHeader.value)
    ensures !(clientIpHeader.Some? && Truthy(Header(req.headers, clientIpHeader.value)))
            && Truthy(Header(req.headers, CloudflareIpHeader)) ==>
      ip == Header(req.headers, CloudflareIpHeader)
    ensures !(clientIpHeader.Some? && Truthy(Header(req.headers, clientIpHeader.value)))
            && !Truthy(Header(req.headers, CloudflareIpHeader)) ==>
      ip == clientIp(req)
  {
    match ChooseIp(req.headers, clientIpHeader)
    case FromHeader(v) => Some(v)
    case UseFallback => clientIp(req)
  }

  /** The corrected and the as-written address agree whenever a custom header
      is configured, and otherwise unless a non-empty "undefined" header is sent. */
  lemma CorrectionAgreesWhenConfigured(req: Request, clientIpHeader: Option<string>,
                                       clientIp: Request -> Option<string>)
    ensures clientIpHeader.Some? || !Truthy(Header(req.headers, "undefined")) ==>
      GetIpAddress(req, clientIpHeader, clientIp) == GetIpAddressAsWritten(req, clientIpHeader, clientIp)
  {
  }

  /** The fallback heuristics are consulted only when neither header is usable:
      otherwise any two fallbacks give the same answer. */
  lemma FallbackOnlyWithoutHeaders(req: Request, clientIpHeader: Option<string>,
                                   f: Request -> Option<string>, g: Request -> Option<string>)
    requires ChooseIp(req.headers, clientIpHeader).FromHeader?
    ensures GetIpAddress(req, clientIpHeader, f) == GetIpAddress(req, clientIpHeader, g)
  {
  }

  /** A request with only the Cloudflare header and no configured custom header
      yields that header's value. */
  lemma CloudflareOnly(ip: string, clientIp: Request -> Option<string>, socket: Option<string>)
    requires ip != ""
    ensures GetIpAddress(Request(map[CloudflareIpHeader := ip], socket), None, clientIp) == Some(ip)
  {
  }
}

=== FILE: js_values.dfy ===
/** JavaScript values as the request helpers see them: optional strings,
    truthiness, header maps, and the request object handed in by the web
    framework. */
module JsValues {

  /** A value that may be `undefined` (or `null`). */
  datatype Option<+T> = None | Some(value: T)

  /** A computation that either yields a value or throws. */
  datatype Result<+T, +E> = Ok(value: T) | Err(error: E)

  /** Truthiness of a string-or-undefined value: only a non-empty string is truthy. */
  predicate Truthy(v: Option<string>) {
    v.Some? && v.value != ""
  }

  /** Incoming request headers, keyed by their (already lower-cased) names. */
  type Headers = map<string, string>

  /** `req.headers[name]`: undefined when the request carries no such header. */
  function Header(headers: Headers, name: string): (v: Option<string>)
    ensures v.Some? <==> name in headers
    ensures v.Some? ==> v.value == headers[name]
  {
    if name in headers then Some(headers[name]) else None
  }

  /** The part of the incoming request the helpers read: the headers, and the
      socket address that the generic client-IP heuristics may fall back on. */
  datatype Request = Request(headers: Headers, socketAddress: Option<string>)
}

=== FILE: numbers.dfy ===
/** JavaScript's coercion of a string to a number, as it happens when a
    string is compared against a numeric threshold (`"1920" < 1440`), and the
    comparisons themselves. Only integer numerals are modelled: everything
    that is not one becomes `NaN`. */
module Numbers {
  import Text

  /** The number a string coerces to. */
  datatype Width = NaN | Num(value: int)

  predicate IsDigit(c: char) {
    '0' <= c <= '9'
  }

  predicate AllDigits(s: string) {
    forall i :: 0 <= i < |s| ==> IsDigit(s[i])
  }

  function DigitValue(c: char): (d: nat)
    requires IsDigit(c)
    ensures d < 10
  {
    (c as int) - ('0' as int)
  }

  /** The value of a run of decimal digits, most significant first. */
  function DigitsValue(s: string): nat
    requires AllDigits(s)
  {
    if s == [] then 0 else 10 * DigitsValue(s[..|s| - 1]) + DigitValue(s[|s| - 1])
  }

  function DigitChar(d: nat): (c: char)
    requires d < 10
    ensures IsDigit(c) && DigitValue(c) == d
  {
    (('0' as int) + d) as char
  }

  /** The decimal numeral of `n` without leading zeros, as `String(n)` writes it. */
  function Decimal(n: nat): (s: string)
    ensures |s| > 0
    ensures AllDigits(s)
  {
    if n < 10 then [DigitChar(n)] else Decimal(n / 10) + [DigitChar(n % 10)]
  }

  /** Reading a numeral back gives the number it was written from. */
  lemma {:induction false} DecimalRoundTrip(n: nat)
    ensures DigitsValue(Decimal(n)) == n
  {
    if n >= 10 {
      var s := Decimal(n);
      assert s[..|s| - 1] == Decimal(n / 10);
      DecimalRoundTrip(n / 10);
    }
  }

  /** `Number(s)` for a string `s`: the empty string is 0, a run of digits
      with an optional leading sign is its value, anything else is `NaN`. */
  function ToNumber(s: string): (w: Width)
    ensures s == "" ==> w == Num(0)
    ensures w.Num? && w.value < 0 ==> s[0] == '-'
    ensures w.Num? ==> forall i :: 0 < i < |s| ==> IsDigit(s[i])
    ensures |s| > 0 && !IsDigit(s[0]) && s[0] != '-' && s[0] != '+' ==> w == NaN
    ensures AllDigits(s) ==> w.Num? && w.value >= 0
    ensures |s| > 1 && (s[0] == '-' || s[0] == '+') && AllDigits(s[1..]) ==> w.Num?
  {
    if AllDigits(s) then Num(DigitsValue(s))
    else if |s| > 1 && s[0] == '-' && AllDigits(s[1..]) then Num(0 - DigitsValue(s[1..]))
    else if |s| > 1 && s[0] == '+' && AllDigits(s[1..]) then Num(DigitsValue(s[1..]))
    else NaN
  }

  /** Every integer, written in decimal with a sign where needed, coerces back to itself. */
  lemma NumberOfDecimal(n: nat)
    ensures ToNumber(Decimal(n)) == Num(n)
    ensures ToNumber("+" + Decimal(n)) == Num(n)
    ensures ToNumber("-" + Decimal(n)) == Num(0 - n)
  {
    DecimalRoundTrip(n);
    var d := Decimal(n);
    assert ("+" + d)[1..] == d;
    assert ("-" + d)[1..] == d;
  }

  /** `k` zero digits. */
  function Zeros(k: nat): (z: string)
    ensures |z| == k && AllDigits(z)
  {
    if k == 0 then [] else "0" + Zeros(k - 1)
  }

  /** A leading zero does not change the value of a run of digits. */
  lemma {:induction false} LeadingZeroIgnored(s: string)
    requires AllDigits(s)
    ensures AllDigits("0" + s) && DigitsValue("0" + s) == DigitsValue(s)
    decreases |s|
  {
    if s != [] {
      var t := "0" + s;
      assert t[..|t| - 1] == "0" + s[..|s| - 1];
      LeadingZeroIgnored(s[..|s| - 1]);
    }
  }

  /** Any number of leading zeros leaves the value unchanged. */
  lemma {:induction false} ZerosIgnored(k: nat, s: string)
    requires AllDigits(s)
    ensures AllDigits(Zeros(k) + s) && DigitsValue(Zeros(k) + s) == DigitsValue(s)
    decreases k
  {
    if k > 0 {
      ZerosIgnored(k - 1, s);
      assert Zeros(k) + s == "0" + (Zeros(k - 1) + s);
      LeadingZeroIgnored(Zeros(k - 1) + s);
    } else {
      assert Zeros(k) + s == s;
    }
  }

  /** A numeral padded with leading zeros, with or without a sign, still
      coerces to its integer: `Number("0800")` is 800 and `Number("-05")` is -5. */
  lemma PaddedNumeral(k: nat, n: nat)
    ensures ToNumber(Zeros(k) + Decimal(n)) == Num(n)
    ensures ToNumber("+" + Zeros(k) + Decimal(n)) == Num(n)
    ensures ToNumber("-" + Zeros(k) + Decimal(n)) == Num(0 - n)
  {
    var d := Zeros(k) + Decimal(n);
    ZerosIgnored(k, Decimal(n));
    DecimalRoundTrip(n);
    assert ("+" + Zeros(k) + Decimal(n))[1..] == d;
    assert ("-" + Zeros(k) + Decimal(n))[1..] == d;
  }

  /** A lone sign is not a numeral. */
  lemma SignAloneIsNaN()
    ensures ToNumber("-") == NaN && ToNumber("+") == NaN
  {
    assert !IsDigit("-"[0]);
    assert !IsDigit("+"[0]);
  }

  /** The width of a `"WxH"` screen string: `screen.split('x')[0]`, coerced. */
  function ScreenWidth(screen: string): Width {
    ToNumber(Text.FirstField(screen, 'x'))
  }

  /** A numeral never contains the width/height separator. */
  lemma NoSeparatorInDecimal(n: nat)
    ensures 'x' !in Decimal(n)
  {
  }

  /** A screen string written from a width and any height yields that width. */
  lemma ScreenWidthOfDecimal(width: nat, height: string)
    ensures ScreenWidth(Decimal(width) + "x" + height) == Num(width)
  {
    var d := Decimal(width);
    NoSeparatorInDecimal(width);
    assert d + "x" + height == d + ['x'] + height;
    Text.FirstFieldOfJoin(d, 'x', height);
    NumberOfDecimal(width);
  }

  /** A screen string with no separator is all width. */
  lemma ScreenWidthOfBareDecimal(width: nat)
    ensures ScreenWidth(Decimal(width)) == Num(width)
  {
    NoSeparatorInDecimal(width);
    Text.FirstFieldWithoutSeparator(Decimal(width), 'x');
    NumberOfDecimal(width);
  }

  /** An empty width coerces to 0, so `"x768"` has width 0. */
  lemma ScreenWidthOfEmptyWidth(height: string)
    ensures ScreenWidth("x" + height) == Num(0)
  {
    assert "x" + height == [] + ['x'] + height;
    Text.FirstFieldOfJoin([], 'x', height);
  }

  /** `w < t` with `w` coerced: every comparison against `NaN` is false. */
  predicate Less(w: Width, t: int) {
    w.Num? && w.value < t
  }

  /** `w > t`. */
  predicate Greater(w: Width, t: int) {
    w.Num? && w.value > t
  }

  /** `w >= t`. */
  predicate AtLeast(w: Width, t: int) {
    w.Num? && w.value >= t
  }
}

=== FILE: text.dfy ===
/** String searching and splitting as JavaScript's `split`, `indexOf` and
    `lastIndexOf` perform them, on strings as sequences of characters. */
module Text {

  /** Element 0 of `s.split(sep)`: everything before the first `sep`, or all
      of `s` when it has none. The three clauses determine the result uniquely
      (see `FirstFieldOfJoin`). */
  function FirstField(s: string, sep: char): (r: string)
    ensures r <= s
    ensures sep !in r
    ensures |r| < |s| ==> s[|r|] == sep
  {
    if s == [] || s[0] == sep then [] else [s[0]] + FirstField(s[1..], sep)
  }

  /** Whatever is joined after a separator-free first field, splitting recovers it. */
  lemma FirstFieldOfJoin(a: string, sep: char, b: string)
    requires sep !in a
    ensures FirstField(a + [sep] + b, sep) == a
  {
    var s := a + [sep] + b;
    var r := FirstField(s, sep);
    assert s[|a|] == sep;
    assert s[..|a|] == a;
    assert r == s[..|r|];
  }

  /** Splitting a string that has no separator gives the whole string. */
  lemma FirstFieldWithoutSeparator(s: string, sep: char)
    requires sep !in s
    ensures FirstField(s, sep) == s
  {
  }

  /** `s.lastIndexOf(c)`: the position of the last `c` in `s`, or -1. */
  function LastIndexOf(s: string, c: char): (i: int)
    ensures -1 <= i < |s|
    ensures i >= 0 ==> s[i] == c
    ensures forall j :: i < j < |s| ==> s[j] != c
  {
    if s == [] then -1
    else if s[|s| - 1] == c then |s| - 1
    else LastIndexOf(s[..|s| - 1], c)
  }

  /** `p` occurs in `s` starting at position `i`. */
  ghost predicate OccursAt(s: string, p: string, i: int) {
    0 <= i && i + |p| <= |s| && s[i..i + |p|] == p
  }

  /** `p` is a substring of `s`. */
  ghost predicate Contains(s: string, p: string) {
    exists i :: OccursAt(s, p, i)
  }

  /** `s.indexOf(p)`: the first position where `p` occurs in `s`, or -1 when
      it occurs nowhere. */
  method IndexOf(s: string, p: string) returns (k: int)
    ensures k == -1 <==> !Contains(s, p)
    ensures k >= 0 ==> OccursAt(s, p, k)
    ensures forall j :: 0 <= j < k ==> !OccursAt(s, p, j)
  {
    k := 0;
    while k + |p| <= |s|
      invariant 0 <= k
      invariant forall j :: 0 <= j < k ==> !OccursAt(s, p, j)
      decreases |s| - k
    {
      if s[k..k + |p|] == p {
        assert OccursAt(s, p, k);
        return;
      }
      k := k + 1;
    }
    k := -1;
  }
}
